=== FILE: README.md ===
# TaLu Kids landing site — behavioural model

A Dafny model of the small amount of behaviour in the TaLu Kids marketing
site, a Next.js/React landing page for a children's learning app. Most of the
site is static markup. This model covers the parts that make decisions:

- **Link resolution** (`href` in `src/lib/utils.ts`). Fragment anchors,
  `mailto:` links and anything starting with `http` pass through unchanged.
  Every other link gets the deployment base path in front. The base path is
  `NEXT_PUBLIC_BASE_PATH`, or `/talu_kids_web` when that is unset or empty.
- **FAQ accordion** (`faq.tsx`). An optional open index with a single-open
  toggle rule.
- **Cookie-consent banner** (`cookie-consent.tsx`). A visibility flag, a
  2000 ms timer and one local-storage key.
- **Simulated form submission**. The newsletter section and the contact page
  share one machine: idle → loading → submitted on a 1000 ms timer. The
  newsletter ignores an empty email; the contact page has no check of its own.
- **Carousel arrows** (`gallery.tsx`). Integer thresholds decide which scroll
  arrows are rendered. Each arrow requests a scroll of ±300 pixels.
- **Navbar** (`navbar.tsx`). The scroll threshold, the mobile-menu toggle and
  the body-overflow lock.
- **Content tables** (`src/lib/constants.ts`). These are Dafny constants, with
  lemmas for the facts the rendering code assumes: lookups are total, React
  keys are unique, nav targets are in-page `#` anchors, ratings are in range.

React state, timers, DOM reads and `localStorage` are explicit:

- Each component is an immutable datatype.
- User actions, time passing (`Elapse(ms)`), mounting and unmounting are
  events.
- Each stateful component has a function that applies one event: `Faq.Toggle`
  for the FAQ, `Step` for the others. Each of them has a `Run` that folds a
  sequence of events; the contact page also has a `Trace` that lists the
  states a sequence visits. The carousel has no event loop: its flags are recomputed by
  `CheckScroll`.
- Storage is a `map<string, string>`.
- Scroll offsets are integers.

A click is delivered only while its element is on screen: the mobile menu's
links and CTA only while the menu is open. The cookie banner's
buttons stay on screen, and keep working, while its exit animation plays after
`isVisible` turns false. That period is modelled as an `exiting` flag that an
`ExitFinished` event clears. A form submits only while it is shown and its
button is enabled. The handlers themselves are modelled as written.

Files, one module each:

- `wrappers.dfy`: `Option`.
- `links.dfy`: `Links`.
- `content.dfy`: `Content`.
- `faq.dfy`: `Faq`.
- `timers.dfy`: `Timers`, the one-shot `setTimeout` countdown.
- `cookie_consent.dfy`: `CookieConsent`.
- `simulated_submit.dfy`: `SimulatedSubmit`.
- `newsletter.dfy`: `Newsletter`.
- `contact.dfy`: `Contact`.
- `gallery.dfy`: `Gallery`.
- `navbar.dfy`: `Navbar`.

## Model

| member | source | states |
|---|---|---|
| Links.BasePath | src/lib/utils.ts:8 | The base path is never empty. It is the environment value when that is set and non-empty. Otherwise, for an unset variable or an empty string, it is `/talu_kids_web`. |
| Links.Href | src/lib/utils.ts:10-15 | The input is always a suffix of the output. The output length is the length of `p` or that length plus the length of the base. Targets starting with `#`, `mailto:` or `http` come back unchanged. Any other target comes back with the base as a prefix and the base length plus the length of `p`. |
| Links.SiteHref | src/lib/utils.ts:8-15 | With the base taken from the environment, the output equals the input exactly when the input is exempt. Otherwise the output is `BasePath(env) + p`. |
| Links.SlashNotExempt | src/lib/utils.ts:11 | A target beginning with `/` fails all three prefix tests. |
| Links.HrefIdempotentOnExempt | src/lib/utils.ts:11-12 | On exempt targets, resolving twice returns the target itself. |
| Links.HrefTwicePrefixesTwice | src/lib/utils.ts:11-14 | For a base beginning with `/` and a non-exempt target, resolving twice prepends the base twice and differs from resolving once, so `href` is not idempotent there. |
| Links.DefaultBaseBlogTwice | src/lib/utils.ts:8-14 | With the default base, resolving `/blog` twice gives `/talu_kids_web/talu_kids_web/blog`. |
| Links.HttpPrefixPassesThrough | src/lib/utils.ts:11-12 | The `http` test is a bare prefix test, so `httpx` and `http-guide` pass through unchanged. So do `#faq`, `mailto:x@y.pl` and `https://example.com`. |
| Links.InternalLinksPrefixed | src/components/layout/navbar.tsx:44 | The site-relative links `/`, `/polityka-prywatnosci`, `/regulamin` and `/blog`, used by the navbar, footer, cookie banner and blog pages, are each prefixed with the base path. |
| Content.NavLinksAreAnchors | src/lib/constants.ts:12-18 | Every navigation href starts with `#`. The navbar and footer render these targets directly, without `href`; `href` would return them unchanged whatever the base. |
| Content.ContactLinkExempt | src/components/layout/footer.tsx:79-85 | The contact link is `mailto:` followed by exactly the site address `kontakt@talukids.pl`, the address shown beside it. It is rendered directly (also at src/app/kontakt/page.tsx:140-146), and `href` would leave it unchanged whatever the base. |
| Content.NavHrefsDistinct | src/lib/constants.ts:12-18 | The navigation hrefs are pairwise distinct. The navbar and footer lists use them as React keys. |
| Content.RenderKeysDistinct | src/lib/constants.ts:20-111 | Feature titles, evolution-step titles and testimonial names are each pairwise distinct. Each serves as a render key. |
| Content.FeatureLookupsTotal | src/components/sections/features.tsx:14-60 | Every feature's icon is a key of the feature grid's `iconMap`, and every feature's colour is a key of its `colorMap`. |
| Content.StepColorLookupTotal | src/components/sections/how-it-works.tsx:7-29 | Every evolution step's colour is yellow, teal or purple. Those are the keys of the diagram's `colorMap`. |
| Content.RatingsBounded | src/lib/constants.ts:89-111 | Every testimonial rating is between 1 and 5, and the card renders exactly that many stars. |
| Content.StarKeys | src/components/sections/testimonials.tsx:51-53 | The star row for rating `n` has `n` entries, keyed by distinct positions `0..n-1`. |
| Content.FaqItemsNonEmpty | src/lib/constants.ts:113-144 | The FAQ table is non-empty, so the accordion's initial index 0 is valid. |
| Faq.OpenItems | src/components/sections/faq.tsx:116 | The items shown open are exactly those whose index equals `openIndex`, so at most one item is open. |
| Faq.Toggle | src/components/sections/faq.tsx:117 | After toggling `i`, item `j` is open exactly when `j == i` and `i` was not open. Toggling the open item closes everything. Toggling a closed item opens only that item. |
| Faq.InitialValid | src/components/sections/faq.tsx:75 | Initially item 0, and only item 0, is open, and that index is valid for the FAQ table. |
| Faq.ToggleTwice | src/components/sections/faq.tsx:117 | Toggling `i` twice restores the state exactly when `i` was open or nothing was open. It does not restore the state when another item was open. |
| Faq.ToggleKeepsValid | src/components/sections/faq.tsx:106-117 | Toggling a rendered item keeps `openIndex` none or a valid index. |
| Faq.RunKeepsValid | src/components/sections/faq.tsx:106-117 | Any sequence of clicks on rendered items keeps `openIndex` none or a valid index, and leaves at most one item open. |
| Faq.ReachableValid | src/components/sections/faq.tsx:75-117 | From the initial state, any clicks on the site's questions leave `openIndex` none or a valid index into the FAQ table. |
| Timers.Advance | src/components/ui/cookie-consent.tsx:14 | A pending timer fires exactly when the elapsed time reaches what is left of its delay. Otherwise it keeps the remainder. A fired or absent timer leaves nothing pending. |
| CookieConsent.Initial | src/components/ui/cookie-consent.tsx:9 | Before mounting, the banner is hidden, no timer is pending and storage is untouched. |
| CookieConsent.MountEffect | src/components/ui/cookie-consent.tsx:11-17 | On mount, a 2000 ms timer is scheduled exactly when no non-empty decision is stored. The banner stays hidden and storage is untouched. |
| CookieConsent.ElapseEffect | src/components/ui/cookie-consent.tsx:14 | After time passes, the banner is visible exactly when it already was, or when its pending timer has run out. Storage is unchanged. |
| CookieConsent.StoreDecision | src/components/ui/cookie-consent.tsx:19-27 | Stores the value under `cookie-consent` and hides the banner. Every other storage key keeps its presence and value. |
| CookieConsent.HandleAccept | src/components/ui/cookie-consent.tsx:19-22 | Accept stores `accepted` and hides the banner. Every other key is unchanged. |
| CookieConsent.HandleDecline | src/components/ui/cookie-consent.tsx:24-27 | Decline stores `declined` and hides the banner. Every other key is unchanged. |
| CookieConsent.Step | src/components/ui/cookie-consent.tsx:11-40 | The mount effect runs once: a second mount changes nothing, and a first one schedules the timer exactly when no decision is stored. Unmounting clears the timer and the banner. Clicks do nothing unless the banner is on screen, visible or leaving. A click on it stores its value, hides it and starts its exit. Only clicks write storage. |
| CookieConsent.StepKeepsWellFormed | src/components/ui/cookie-consent.tsx:9-31 | Every event keeps four facts true: an unmounted banner shows nothing and has no timer, a rendered banner (visible or leaving) has no timer, a leaving banner is not visible, and a pending timer has time left. |
| CookieConsent.InitiallyHidden | src/components/ui/cookie-consent.tsx:9 | The banner is not visible initially, and the initial state is well formed. |
| CookieConsent.ShownOnlyByTimer | src/components/ui/cookie-consent.tsx:13-14 | The only event that turns the banner visible is time passing that reaches a pending timer's delay. |
| CookieConsent.SettledStaysHidden | src/components/ui/cookie-consent.tsx:11-31 | Once a decision is stored and the banner is hidden with no timer pending, no sequence of events shows it again, remounts included. |
| CookieConsent.StoredDecisionNeverShown | src/components/ui/cookie-consent.tsx:12-13 | If a non-empty decision is stored at load, the banner never becomes visible, whatever events follow. |
| CookieConsent.DecisionHidesForGood | src/components/ui/cookie-consent.tsx:19-40 | Accepting, or declining with either the X or the "Tylko niezbędne" button, stores the matching value. The banner then stays hidden under every later sequence of events. |
| CookieConsent.LastClickDuringExitWins | src/components/ui/cookie-consent.tsx:30-40 | While the banner plays its exit animation its buttons still work, so a second click overrides the first: accepting and then choosing "Tylko niezbędne" stores `declined`. After the animation ends, clicks change nothing. |
| CookieConsent.VisibleStaysVisible | src/components/ui/cookie-consent.tsx:14 | A visible banner stays visible while only time passes. |
| CookieConsent.TimerShowsAfterDelay | src/components/ui/cookie-consent.tsx:14 | A mounted banner with `left` ms on its timer becomes visible after some waits exactly when the waits total at least `left`. |
| CookieConsent.FirstVisitShownAfterDelay | src/components/ui/cookie-consent.tsx:12-14 | With no decision stored, after mounting, the banner is visible exactly when at least 2000 ms have passed. |
| CookieConsent.UnmountCancelsTimer | src/components/ui/cookie-consent.tsx:15 | After unmounting, no amount of time passing shows the banner. |
| SimulatedSubmit.PhaseOf | src/app/kontakt/page.tsx:9-10 | The phase is submitted exactly when `isSubmitted`, and loading exactly when loading but not submitted. |
| SimulatedSubmit.Begin | src/app/kontakt/page.tsx:14-15 | Starting a submission sets loading, leaves `isSubmitted` as it was and schedules a 1000 ms timer. |
| SimulatedSubmit.Elapse | src/app/kontakt/page.tsx:15-18 | When the timer fires, the submission becomes submitted and not loading. Before that, both flags are kept and the remainder shrinks. |
| SimulatedSubmit.InitialWellFormed | src/app/kontakt/page.tsx:9-10 | Both flags start false, so the initial phase is idle. |
| SimulatedSubmit.BeginFromIdle | src/app/kontakt/page.tsx:12-19 | A submit from a rendered form with an enabled button moves from idle to loading, without completing. |
| SimulatedSubmit.ElapseAdvances | src/app/kontakt/page.tsx:15-18 | Time passing keeps the state well formed and moves the phase forward by at most one. Only a loading submission can change phase. |
| SimulatedSubmit.SubmittedStays | src/app/kontakt/page.tsx:15-18 | A completed submission is unchanged by any amount of waiting. |
| SimulatedSubmit.CompletesAfterDelay | src/app/kontakt/page.tsx:15-18 | A loading submission completes after some waits exactly when the waits total at least its remaining delay. Until then it is still loading. |
| Newsletter.HandleSubmit | src/components/sections/newsletter.tsx:12-22 | An empty email leaves the form unchanged. A non-empty email keeps the email, sets loading and schedules the completion 1000 ms later. In both cases `isSubmitted` is untouched. |
| Newsletter.Confirmation | src/components/sections/newsletter.tsx:74-89 | The confirmation is shown exactly when submitted, and shows the current email state. |
| Newsletter.Step | src/components/sections/newsletter.tsx:74-105 | Typing sets the email only while the form is rendered. A submit does nothing once submitted, while loading, or with an empty email. Otherwise it keeps the email, sets loading and schedules 1000 ms. Time passing never changes the email. |
| Newsletter.EmptyEmailIgnored | src/components/sections/newsletter.tsx:14 | Submitting with an empty email is a no-op. |
| Newsletter.SubmitStartsLoading | src/components/sections/newsletter.tsx:16 | Submitting a non-empty email from the idle form sets loading and leaves submitted false. |
| Newsletter.StepAdvances | src/components/sections/newsletter.tsx:12-22 | Every event keeps the submission well formed and moves its phase forward by at most one. |
| Newsletter.RunNeverGoesBack | src/components/sections/newsletter.tsx:74-105 | No sequence of events moves the form to an earlier phase. Once submitted, the form is gone and the state never returns to idle. |
| Newsletter.SubmittedIsFinal | src/components/sections/newsletter.tsx:74-92 | Once submitted, no event changes the state, and the confirmation keeps showing the same address. |
| Newsletter.WaitsOnlyAdvanceTimer | src/components/sections/newsletter.tsx:18-21 | Time passing leaves the email alone and only advances the submission. |
| Newsletter.SubmittedAfterDelay | src/components/sections/newsletter.tsx:14-21 | From the idle form with a non-empty email, a submit followed by waits shows the confirmation exactly when the waits total at least 1000 ms. The confirmation then shows that email. |
| Newsletter.EditWhileLoadingShown | src/components/sections/newsletter.tsx:88-97 | The input stays editable while loading. The confirmation shows the address typed before the timer fired, not the one submitted. |
| Contact.HandleSubmit | src/app/kontakt/page.tsx:12-14 | The handler sets loading and schedules the timer with no check of its own, leaving `isSubmitted` as it was. |
| Contact.Step | src/app/kontakt/page.tsx:12-120 | A submit does nothing once submitted (the confirmation replaces the form) or while loading (the button is disabled). Otherwise it sets loading and schedules 1000 ms. Time passing completes the submission exactly when the timer runs out, and otherwise keeps both flags. |
| Contact.Trace | src/app/kontakt/page.tsx:12-19 | The trace of a run starts with the given state, has one more state than there are events, and each state is the previous one after the next event. |
| Contact.StepAdvances | src/app/kontakt/page.tsx:12-19 | Every event keeps the state well formed and moves the phase forward by at most one. |
| Contact.TraceAdvances | src/app/kontakt/page.tsx:44-120 | Along any run, every state is well formed, each event advances the phase by at most one, and the phase never decreases. The only reachable sequence is idle → loading → submitted. |
| Contact.NoWayBack | src/app/kontakt/page.tsx:44-62 | A submit on the idle page starts loading. Once the page has left idle it never returns, and once submitted it stays submitted. |
| Contact.RunEndsTrace | src/app/kontakt/page.tsx:12-19 | Running events from a state ends in the last state of their trace. |
| Contact.WaitsFollowWait | src/app/kontakt/page.tsx:14-19 | A run of waits on the page ends in the same state as the shared machine's `Wait` over those waits. |
| Contact.SubmittedAfterDelay | src/app/kontakt/page.tsx:12-19 | From the idle page, a submit followed by any waits ends submitted exactly when the waits total at least 1000 ms, and still loading otherwise. |
| Gallery.CheckScroll | src/components/sections/gallery.tsx:45-50 | With no element, both flags are unchanged. Otherwise `canScrollLeft` holds exactly when `scrollLeft > 10`, and `canScrollRight` holds exactly when `scrollLeft + 10 < scrollWidth - clientWidth`. |
| Gallery.ArrowButtons | src/components/sections/gallery.tsx:104-121 | Each arrow button is rendered exactly when its flag is true, once, and left before right. |
| Gallery.ScrollRequest | src/components/sections/gallery.tsx:64-69 | With no element, nothing scrolls. Otherwise the delta is -300 for left and +300 for right. |
| Gallery.BothArrowsIffInterior | src/components/sections/gallery.tsx:48-49 | Both arrows are rendered exactly when the offset is more than 10 pixels from each end. |
| Gallery.NarrowNeverBoth | src/components/sections/gallery.tsx:48-49 | When `scrollWidth - clientWidth <= 20`, the two flags are never both true after a check, so at most one arrow is rendered. |
| Gallery.ArrowsMonotone | src/components/sections/gallery.tsx:48-49 | Scrolling further right can only turn the left arrow on and the right arrow off. |
| Gallery.RenderedArrowScrollsTowardRoom | src/components/sections/gallery.tsx:64-121 | A rendered arrow has more than 10 pixels of room on its side, and clicking it asks to scroll towards that room: negative for left, positive for right. |
| Gallery.ArrowsAtEnds | src/components/sections/gallery.tsx:42-49 | For a container that can scroll more than 10 pixels: at offset 0 `checkScroll` gives the initial flags (right arrow only), and at the far end only the left arrow is rendered. |
| Gallery.ScreenTitlesDistinct | src/components/sections/gallery.tsx:7-38 | The carousel's screen titles, used as React keys, are pairwise distinct. |
| Navbar.OverflowFor | src/components/layout/navbar.tsx:19-24 | Body overflow is `hidden` exactly when the menu is open, and `""` exactly when it is closed. |
| Navbar.MenuButtonLabel | src/components/layout/navbar.tsx:83 | The toggle's aria-label is "Zamknij menu" when the menu is open and "Otwórz menu" when it is closed. |
| Navbar.SetMenu | src/components/layout/navbar.tsx:19-28 | Setting the menu flag re-runs the effect only on a change, and then leaves the overflow matching the new value. Setting the current value changes nothing. |
| Navbar.Step | src/components/layout/navbar.tsx:13-126 | An unmounted bar ignores every event. A scroll event sets `isScrolled` exactly when `scrollY > 20` and touches nothing else, and no other event changes it. The menu button flips the menu and sets overflow to match. A mobile link or the CTA, which exist only while the menu is open, closes it. Unmounting resets overflow to `""`. |
| Navbar.InitialState | src/components/layout/navbar.tsx:10-11 | Initially the bar is not scrolled, the menu is closed and body overflow is `""`. |
| Navbar.ScrolledIffPastThreshold | src/components/layout/navbar.tsx:14 | After a scroll event, `isScrolled` holds exactly when `scrollY > 20`. |
| Navbar.ToggleFlips | src/components/layout/navbar.tsx:81 | The menu button flips `isMobileOpen`, and pressing it twice restores the whole state. |
| Navbar.MobileClicksClose | src/components/layout/navbar.tsx:103-115 | Clicking any mobile nav link or the mobile CTA closes the menu and sets body overflow to `""`. |
| Navbar.StepKeepsSync | src/components/layout/navbar.tsx:19-28 | Every event keeps body overflow in step with the menu while mounted, and `""` after unmount. |
| Navbar.OverflowLocksOnlyWhileOpen | src/components/layout/navbar.tsx:19-28 | After any events, body overflow is `hidden` exactly when the mounted bar's menu is open, and `""` otherwise. This includes the cleanup on unmount. |
| Navbar.ScrolledTracksLastScroll | src/components/layout/navbar.tsx:13-17 | While mounted, `isScrolled` reflects the last scroll event's offset, or its earlier value if there was none. |

## Left out

- `cn` (`src/lib/utils.ts:4-6`) is left out. It wraps clsx and tailwind-merge, whose code is not part of this model.
- Animation is left out. This covers all framer-motion use, the `AnimatedNumber` counters in `stats.tsx`, and their floating-point tweens and easing.
- Real timers, DOM listeners, `localStorage` I/O, smooth `scrollBy` and `document.body` styling are left out. They appear only as explicit events and state fields. The browser's clamping of the scroll offset after `scrollBy` is not modelled.
- Gallery.ArrowButtons: the buttons carry `hidden sm:flex`, so below Tailwind's `sm` breakpoint neither arrow is displayed whatever its flag says; the model states only which buttons are rendered. Scroll snapping (`snap-x snap-mandatory` with `snap-center` cards) is not modelled either: after `scrollBy` the browser settles on a snap point, so the distance moved is generally not the 300 pixels requested.
- Gallery.CheckScroll: `scrollLeft` (and the navbar's `scrollY`) are integers here. Browsers report them as doubles, so fractional offsets are not modelled. `scrollWidth` and `clientWidth` are integers in the browser as well.
- Browser form validation (`required`, `type="email"`) is left out, because the browser enforces it, not the site's code. The model also assumes the submit button is disabled while loading, so no submit arrives then, including implicit submission by Enter.
- CookieConsent.Step: the exit animation's length (a spring) is not modelled. Its end is the `ExitFinished` event, which may come at any point after the click.
- The scheduled form timers are never cleared on unmount (the source has no cleanup for them). Submissions are not modelled across an unmount.
- The purely presentational sections and pages are left out as static markup. These are hero, features, how-it-works, guides, parents, testimonials, stats, the home and for-parents pages, privacy and terms, layout metadata and JSON-LD. Their lookup tables appear only as the key sets the content lemmas need.
- The blog index and post pages are left out. Besides link building, which `Links.Href` covers, and locale date formatting, the post page does three things the model does not cover: it looks a slug up in its post table and calls `notFound()` for an unknown one, it lists the slugs for static generation, and it splits a post body on blank lines and renders `**…**` paragraphs as headings and `**…**` parts as bold text. The post table is not part of this model.
- `SITE_CONFIG.copyright` is left out, because it depends on the current year. The other site fields are constants in `Content.Site`; of them only the contact address takes part in a lemma (`Content.ContactLinkExempt`). The name, tagline and age range are display text.
- `next.config.ts` is left out. Its hard-coded `basePath` equals the `href` default, but the environment value can differ from it.

=== FILE: contact.dfy ===
/** The contact page's form (src/app/kontakt/page.tsx).  Its submit handler
    checks nothing itself: required fields are left to the browser. */
module Contact {
  import opened Wrappers
  import opened SimulatedSubmit

  datatype Event =
    | Submit          // the form's `onSubmit`
    | Elapse(ms: nat) // time passes

  /** `handleSubmit`: unconditionally starts the simulated request. */
  function HandleSubmit(s: Submission): (s': Submission)
    ensures s'.isLoading && s'.timer.Some?
    ensures s'.isSubmitted == s.isSubmitted
  {
    Begin(s)
  }

  /** One event.  The form exists until the submission completes and its
      button is disabled while loading. */
  function Step(s: Submission, e: Event): (r: Submission)
    ensures e.Submit? && !(FormRendered(s) && SubmitEnabled(s)) ==> r == s
    ensures e.Submit? && FormRendered(s) && SubmitEnabled(s)
            ==> r.isLoading && !r.isSubmitted && r.timer == Some(SubmitDelayMs)
    ensures e.Elapse? && s.timer.Some? && e.ms >= s.timer.value ==> r.isSubmitted && !r.isLoading
    ensures e.Elapse? && (s.timer.None? || e.ms < s.timer.value)
            ==> r.isSubmitted == s.isSubmitted && r.isLoading == s.isLoading
  {
    match e
    case Submit => if FormRendered(s) && SubmitEnabled(s) then HandleSubmit(s) else s
    case Elapse(ms) => SimulatedSubmit.Elapse(s, ms)
  }

  /** The states visited by the events, starting with `s`: each state is the
      previous one after the next event. */
  function Trace(s: Submission, events: seq<Event>): (t: seq<Submission>)
    ensures |t| == |events| + 1 && t[0] == s
    ensures forall k :: 0 <= k < |events| ==> t[k + 1] == Step(t[k], events[k])
    decreases |events|
  {
    [s] + (if |events| == 0 then [] else Trace(Step(s, events[0]), events[1..]))
  }

  function ElapseBy(ms: nat): Event {
    Elapse(ms)
  }

  /** `ms` milliseconds pass in the steps `ds`. */
  function Waits(ds: seq<nat>): seq<Event> {
    Timers.Waits(ds, ElapseBy)
  }

  /** The state after the events, starting from `s`. */
  function Run(s: Submission, events: seq<Event>): Submission
    decreases |events|
  {
    if |events| == 0 then s else Run(Step(s, events[0]), events[1..])
  }

  /** A run ends in the last state of the trace of the same events. */
  lemma {:induction false} RunEndsTrace(s: Submission, events: seq<Event>)
    ensures Run(s, events) == Trace(s, events)[|events|]
    decreases |events|
  {
    if |events| > 0 {
      assert Trace(s, events) == [s] + Trace(Step(s, events[0]), events[1..]);
      RunEndsTrace(Step(s, events[0]), events[1..]);
    }
  }

  /** Waiting on the page ends where the shared machine's `Wait` ends. */
  lemma {:induction false} WaitsFollowWait(s: Submission, ds: seq<nat>)
    ensures Run(s, Waits(ds)) == Wait(s, ds)
    decreases |ds|
  {
    if |ds| > 0 {
      assert Waits(ds)[0] == Elapse(ds[0]) && Waits(ds)[1..] == Waits(ds[1..]);
      WaitsFollowWait(SimulatedSubmit.Elapse(s, ds[0]), ds[1..]);
    }
  }

  /** From the idle page, a submit followed by the waits `ds` ends in the
      confirmation exactly when 1000 ms have passed, and in the loading
      state otherwise. */
  lemma SubmittedAfterDelay(s: Submission, ds: seq<nat>)
    requires WellFormed(s) && PhaseOf(s) == Idle
    ensures Run(s, [Submit] + Waits(ds)).isSubmitted <==> Timers.Sum(ds) >= SubmitDelayMs
    ensures PhaseOf(Run(s, [Submit] + Waits(ds)))
            == (if Timers.Sum(ds) >= SubmitDelayMs then Submitted else Loading)
  {
    assert ([Submit] + Waits(ds))[1..] == Waits(ds);
    BeginFromIdle(s);
    WaitsFollowWait(Step(s, Submit), ds);
    CompletesAfterDelay(Step(s, Submit), ds);
  }

  lemma StepAdvances(s: Submission, e: Event)
    requires WellFormed(s)
    ensures WellFormed(Step(s, e))
    ensures Advances(s, Step(s, e))
  {
    if e.Elapse? {
      ElapseAdvances(s, e.ms);
    }
  }

  /** Along any run every state is well formed, each event moves the page
      forward by at most one phase, and phases never go back: the only
      reachable sequence is idle, loading, submitted. */
  lemma {:induction false} TraceAdvances(s: Submission, events: seq<Event>)
    requires WellFormed(s)
    ensures forall k :: 0 <= k < |Trace(s, events)| ==> WellFormed(Trace(s, events)[k])
    ensures forall k :: 0 <= k < |events| ==> Advances(Trace(s, events)[k], Trace(s, events)[k + 1])
    ensures forall i, j :: 0 <= i <= j < |Trace(s, events)|
              ==> Rank(PhaseOf(Trace(s, events)[i])) <= Rank(PhaseOf(Trace(s, events)[j]))
    decreases |events|
  {
    if |events| > 0 {
      var t := Trace(s, events);
      var rest := Trace(Step(s, events[0]), events[1..]);
      assert t == [s] + rest;
      StepAdvances(s, events[0]);
      TraceAdvances(Step(s, events[0]), events[1..]);
      forall i, j | 0 <= i <= j < |t|
        ensures Rank(PhaseOf(t[i])) <= Rank(PhaseOf(t[j]))
      {
        if i == 0 && j > 0 {
          assert t[j] == rest[j - 1];
          assert Rank(PhaseOf(rest[0])) <= Rank(PhaseOf(rest[j - 1]));
        } else if i > 0 {
          assert t[i] == rest[i - 1] && t[j] == rest[j - 1];
        }
      }
    }
  }

  /** A submit on the idle page starts loading; once the page has left idle
      it never returns to it, and once submitted it stays submitted. */
  lemma NoWayBack(s: Submission, events: seq<Event>)
    requires WellFormed(s) && PhaseOf(s) == Idle
    ensures PhaseOf(Step(s, Submit)) == Loading
    ensures forall i, j :: 0 <= i <= j < |Trace(s, events)| && PhaseOf(Trace(s, events)[i]) != Idle
              ==> PhaseOf(Trace(s, events)[j]) != Idle
    ensures forall i, j :: 0 <= i <= j < |Trace(s, events)| && PhaseOf(Trace(s, events)[i]) == Submitted
              ==> PhaseOf(Trace(s, events)[j]) == Submitted
  {
    TraceAdvances(s, events);
  }
}

=== FILE: content.dfy ===
/** The static content tables of the site (src/lib/constants.ts) and the
    lookup tables the rendering code indexes them with.  The lemmas state
    the facts the rendering code relies on without checking them: lookups
    are total, render keys are unique, ratings are in range. */
module Content {
  import Links

  datatype SiteConfig = SiteConfig(
    name: string,
    tagline: string,
    description: string,
    url: string,
    email: string,
    ageRange: string)

  datatype NavLink = NavLink(caption: string, href: string)

  datatype Feature = Feature(title: string, description: string, icon: string, color: string)

  datatype EvolutionStep = EvolutionStep(emoji: string, title: string, description: string, color: string)

  datatype Testimonial = Testimonial(name: string, role: string, text: string, avatar: string, rating: int)

  datatype FaqItem = FaqItem(question: string, answer: string)

  const Site: SiteConfig := SiteConfig(
    "TaLu Kids",
    "Partner Twojego Dziecka",
    "Aplikacja edukacyjna dla dzieci 4-8 lat. Gry, zabawy, bajki i rozwoj przez zabawę z wirtualnym zwierzakiem.",
    "https://talukids.pl",
    "kontakt@talukids.pl",
    "4-8 lat")

  const NavLinks: seq<NavLink> := [
    NavLink("Funkcje", "#funkcje"),
    NavLink("Jak to działa", "#jak-to-dziala"),
    NavLink("Przewodnicy", "#przewodnicy"),
    NavLink("Dla rodziców", "#dla-rodzicow"),
    NavLink("FAQ", "#faq")
  ]

  const Features: seq<Feature> := [
    Feature("Gry edukacyjne",
      "Interaktywne gry rozwijające logiczne myślenie, pamięć i zdolności manualne. 7 różnych gier dostosowanych do wieku dziecka.",
      "Gamepad2", "pink"),
    Feature("Nauka pisania",
      "Cały polski alfabet od A do Ż z systemem waypointów. Dziecko śledzi literki palcem i zdobywa nagrody za każdą opanowaną.",
      "PenTool", "teal"),
    Feature("Wirtualny zwierzak",
      "Magiczne jajko, które rośnie razem z wiedzą dziecka. Karm, baw się i obserwuj jak Twój pupil ewoluuje przez 4 fazy!",
      "Heart", "purple"),
    Feature("Rozwój kreatywności",
      "Rysowanie, szlaczki, kolorowanki i zadania tworcze. Wspieramy artystyczne talenty każdego dziecka.",
      "Palette", "yellow"),
    Feature("Bezpieczna przestrzeń",
      "Zero reklam, zero ukrytych płatności. Kontrola rodzicielska z bramką 4-sekundową. Pełna zgodność z RODO i COPPA.",
      "Shield", "green"),
    Feature("Bajki i opowiadania",
      "Interaktywne historie z Lumi i Taro, które rozwijają wyobraźnię i uczą wartości. Idealne na dobranoc.",
      "BookOpen", "orange")
  ]

  const EvolutionSteps: seq<EvolutionStep> := [
    EvolutionStep("🥚", "Opiekuj się",
      "Karm, myj i baw się ze swoim jajkiem. Ono potrzebuje miłości, żeby rosnąć!",
      "yellow"),
    EvolutionStep("⚡", "Ucz się",
      "Rozwiązuj zadania edukacyjne, aby zdobywać magiczną energię potrzebną do wyklucia.",
      "teal"),
    EvolutionStep("🐣", "Wykluwaj!",
      "Zobacz moment pęknięcia skorupki i poznaj swojego unikalnego zwierzaka!",
      "purple")
  ]

  const Testimonials: seq<Testimonial> := [
    Testimonial("Anna K.", "Mama 5-latka",
      "Maks sam prosi o „te gry z jajkiem”. Nie wierzyłam, że nauka liter może być tak wciągająca. Po 2 tygodniach zna już cały alfabet!",
      "AK", 5),
    Testimonial("Tomek W.", "Tata 6-latki",
      "Wreszcie aplikacja bez reklam i irytujących powiadomień. Zuzia uwielbia rysowanie szlaczków, a ja mam spokój, że jest bezpieczna.",
      "TW", 5),
    Testimonial("Marta D.", "Mama 4-latka i 7-latki",
      "Obie córki uwielbiają TaLu Kids, mimo różnicy wieku. Starsza pomaga młodszej opiewać się nad zwierzakiem. Cudowne!",
      "MD", 5)
  ]

  const FaqItems: seq<FaqItem> := [
    FaqItem("Dla jakiego wieku jest TaLu Kids?",
      "TaLu Kids jest zaprojektowane dla dzieci w wieku 4-8 lat. Zadania są dostosowane do poziomu rozwoju dziecka i stopniowo się utrudniają."),
    FaqItem("Czy aplikacja jest bezpieczna dla mojego dziecka?",
      "Absolutnie! Nie ma żadnych reklam, ukrytych płatności ani linków zewnętrznych. Aplikacja jest w pełni zgodna z RODO i COPPA. Panel rodzica jest chroniony 4-sekundową bramką bezpieczeństwa."),
    FaqItem("Jak działa system zwierzaka?",
      "Dziecko otrzymuje magiczne jajko, które ewoluuje w miarę nauki. Karmienie, mycie i zabawa z jajkiem to codzienne aktywności, a rozwiązywanie zadań edukacyjnych daje energię do wyklucia. Zwierzak przechodzi przez 4 fazy ewolucji!"),
    FaqItem("Na jakich urządzeniach działa aplikacja?",
      "TaLu Kids działa na telefonach i tabletach z Androidem oraz iOS. Aplikacja jest zoptymalizowana pod tablety – idealne do nauki pisania palcem po ekranie."),
    FaqItem("Czy mogę śledzić postępy mojego dziecka?",
      "Tak! Panel rodzica pozwala zobaczyć, które litery dziecko opanowało, ile czasu spędza w aplikacji i jakie nagrody zdobyło. Raporty są przejrzyste i łatwe do zrozumienia."),
    FaqItem("Ile kosztuje TaLu Kids?",
      "Podstawowa wersja aplikacji jest darmowa i zawiera pełen zestaw gier edukacyjnych. W przyszłości planujemy wersję premium z dodatkowymi treściami i zwierzakami.")
  ]

  /** Keys of `iconMap` in the feature grid. */
  const FeatureIconKeys: set<string> := {"Gamepad2", "PenTool", "Heart", "Palette", "Shield", "BookOpen"}

  /** Keys of `colorMap` in the feature grid. */
  const FeatureColorKeys: set<string> := {"pink", "teal", "purple", "yellow", "green", "orange"}

  /** Keys of `colorMap` in the "how it works" diagram. */
  const StepColorKeys: set<string> := {"yellow", "teal", "purple"}

  /** No two elements of `s` are equal, as React requires of sibling keys. */
  predicate Distinct<T(==)>(s: seq<T>) {
    forall i, j :: 0 <= i < j < |s| ==> s[i] != s[j]
  }

  function NavHrefs(): (hrefs: seq<string>)
    ensures |hrefs| == |NavLinks|
    ensures forall i :: 0 <= i < |NavLinks| ==> hrefs[i] == NavLinks[i].href
  {
    seq(|NavLinks|, i requires 0 <= i < |NavLinks| => NavLinks[i].href)
  }

  function FeatureTitles(): (titles: seq<string>)
    ensures |titles| == |Features|
    ensures forall i :: 0 <= i < |Features| ==> titles[i] == Features[i].title
  {
    seq(|Features|, i requires 0 <= i < |Features| => Features[i].title)
  }

  function StepTitles(): (titles: seq<string>)
    ensures |titles| == |EvolutionSteps|
    ensures forall i :: 0 <= i < |EvolutionSteps| ==> titles[i] == EvolutionSteps[i].title
  {
    seq(|EvolutionSteps|, i requires 0 <= i < |EvolutionSteps| => EvolutionSteps[i].title)
  }

  function TestimonialNames(): (names: seq<string>)
    ensures |names| == |Testimonials|
    ensures forall i :: 0 <= i < |Testimonials| ==> names[i] == Testimonials[i].name
  {
    seq(|Testimonials|, i requires 0 <= i < |Testimonials| => Testimonials[i].name)
  }

  /** The star row of a testimonial card: `[...Array(rating)]`, keyed by
      position. */
  function StarKeys(rating: nat): (keys: seq<nat>)
    ensures |keys| == rating
    ensures Distinct(keys)
    ensures forall j :: 0 <= j < rating ==> keys[j] == j
  {
    seq(rating, j => j)
  }

  /** Every navigation target is an in-page anchor.  The navbar and the
      footer render these targets as they are, without `href`; had they
      passed them through it, it would have left them unchanged whatever the
      base path. */
  lemma NavLinksAreAnchors(base: string)
    ensures forall i :: 0 <= i < |NavLinks| ==> Links.StartsWith(NavLinks[i].href, "#")
    ensures forall i :: 0 <= i < |NavLinks| ==> Links.Href(base, NavLinks[i].href) == NavLinks[i].href
  {
    forall i | 0 <= i < |NavLinks|
      ensures Links.StartsWith(NavLinks[i].href, "#")
    {
      assert NavLinks[i].href[0] == '#';
    }
  }

  /** The contact link the footer and the contact page build from the site's
      address: `mailto:` followed by exactly that address. */
  function MailtoLink(): (link: string)
    ensures Links.StartsWith(link, "mailto:") && link[|"mailto:"|..] == Site.email
  {
    "mailto:" + Site.email
  }

  /** The contact link is a `mailto:` target: the footer and the contact page
      render it as it is, and `href` would leave it unchanged whatever the
      base path.  The address shown beside it is the one it opens. */
  lemma ContactLinkExempt(base: string)
    ensures Links.IsExempt(MailtoLink())
    ensures Links.Href(base, MailtoLink()) == MailtoLink()
    ensures MailtoLink() == "mailto:kontakt@talukids.pl"
  {
  }

  /** The navigation hrefs are the React keys of the navbar and the footer
      lists, and they are pairwise distinct. */
  lemma NavHrefsDistinct()
    ensures Distinct(NavHrefs())
  {
  }

  /** Feature titles key the feature cards; step titles key the steps of the
      "how it works" diagram; testimonial names key the testimonial cards. */
  lemma RenderKeysDistinct()
    ensures Distinct(FeatureTitles())
    ensures Distinct(StepTitles())
    ensures Distinct(TestimonialNames())
  {
  }

  /** Both lookups of the feature grid are total on the feature table. */
  lemma FeatureLookupsTotal()
    ensures forall i :: 0 <= i < |Features| ==> Features[i].icon in FeatureIconKeys
    ensures forall i :: 0 <= i < |Features| ==> Features[i].color in FeatureColorKeys
  {
  }

  /** The colour lookup of the "how it works" diagram is total on the
      evolution steps. */
  lemma StepColorLookupTotal()
    ensures forall i :: 0 <= i < |EvolutionSteps| ==> EvolutionSteps[i].color in StepColorKeys
  {
  }

  /** Every rating is a star count between 1 and 5, and the card renders
      exactly that many stars. */
  lemma RatingsBounded()
    ensures forall i :: 0 <= i < |Testimonials| ==> 1 <= Testimonials[i].rating <= 5
    ensures forall i :: 0 <= i < |Testimonials| ==> |StarKeys(Testimonials[i].rating)| == Testimonials[i].rating
  {
  }

  /** The accordion's initial open index 0 is valid because the FAQ table is
      not empty. */
  lemma FaqItemsNonEmpty()
    ensures |FaqItems| > 0
  {
  }
}

=== FILE: cookie_consent.dfy ===
/** The cookie-consent banner (src/components/ui/cookie-consent.tsx).

    The component's visibility flag, its pending timer and the browser's
    local storage are explicit state; mounting, unmounting, the passing of
    time and the clicks on the banner's buttons are explicit events.

    The banner sits inside an `AnimatePresence`, which keeps it on screen,
    buttons and handlers included, while its exit animation plays after
    `isVisible` turns false.  That period is the `exiting` flag; the end of
    the animation is an explicit event. */
module CookieConsent {
  import opened Wrappers
  import Timers

  /** The one storage key the banner reads and writes. */
  const ConsentKey: string := "cookie-consent"

  /** Delay, in milliseconds, before the banner is shown on a first visit. */
  const ShowDelayMs: nat := 2000

  const Accepted: string := "accepted"
  const Declined: string := "declined"

  /** The component: whether it is mounted, its `isVisible` flag, whether the
      banner is still on screen playing its exit animation, and the
      milliseconds left on its pending timer, if one is scheduled. */
  datatype Banner = Banner(mounted: bool, visible: bool, exiting: bool, timer: Option<nat>)

  /** The banner together with the browser's local storage. */
  datatype Page = Page(banner: Banner, storage: map<string, string>)

  /** The two buttons that decline: the X in the corner and
      "Tylko niezbędne". */
  datatype DeclineButton = CloseButton | NecessaryOnlyButton

  datatype Event =
    | Mount
    | Elapse(ms: nat)
    | ExitFinished
    | Unmount
    | ClickAccept
    | ClickDecline(button: DeclineButton)

  /** `localStorage.getItem(ConsentKey)` is truthy: a non-empty value is
      stored. */
  predicate HasDecision(storage: map<string, string>) {
    ConsentKey in storage && storage[ConsentKey] != ""
  }

  /** The banner and its buttons are on screen: shown, or leaving. */
  predicate Rendered(b: Banner) {
    b.visible || b.exiting
  }

  /** The value a click stores. */
  function ClickValue(e: Event): string
    requires e.ClickAccept? || e.ClickDecline?
  {
    if e.ClickAccept? then Accepted else Declined
  }

  /** Before the component mounts nothing is shown and no timer runs. */
  function Initial(storage: map<string, string>): (p: Page)
    ensures !p.banner.mounted && !Rendered(p.banner) && p.banner.timer.None?
    ensures p.storage == storage
  {
    Page(Banner(false, false, false, None), storage)
  }

  /** The mount effect: with no decision stored, a timer is scheduled. */
  function MountEffect(p: Page): (p': Page)
    requires !p.banner.mounted
    ensures p'.banner.mounted && !Rendered(p'.banner) && p'.storage == p.storage
    ensures p'.banner.timer.Some? <==> !HasDecision(p.storage)
    ensures p'.banner.timer.Some? ==> p'.banner.timer.value == ShowDelayMs
  {
    var timer := if HasDecision(p.storage) then None else Some(ShowDelayMs);
    Page(Banner(true, false, false, timer), p.storage)
  }

  /** `ms` milliseconds pass; a pending timer fires once its delay is used
      up and makes the banner visible. */
  function ElapseEffect(p: Page, ms: nat): (p': Page)
    ensures p'.storage == p.storage && p'.banner.mounted == p.banner.mounted
    ensures p'.banner.exiting == p.banner.exiting
    ensures p'.banner.visible <==> p.banner.visible || (p.banner.timer.Some? && ms >= p.banner.timer.value)
    ensures p.banner.timer.Some? && ms < p.banner.timer.value
            ==> p'.banner.timer == Some(p.banner.timer.value - ms)
    ensures p.banner.timer.None? || ms >= p.banner.timer.value ==> p'.banner.timer.None?
  {
    var tick := Timers.Advance(p.banner.timer, ms);
    Page(p.banner.(visible := p.banner.visible || tick.fired, timer := tick.rest), p.storage)
  }

  /** Stores `value` under the consent key and hides the banner: the body
      shared by `handleAccept` and `handleDecline`. */
  function StoreDecision(p: Page, value: string): (p': Page)
    ensures ConsentKey in p'.storage && p'.storage[ConsentKey] == value
    ensures forall k :: k != ConsentKey ==> (k in p'.storage <==> k in p.storage)
    ensures forall k :: k != ConsentKey && k in p.storage ==> p'.storage[k] == p.storage[k]
    ensures !p'.banner.visible
    ensures p'.banner.mounted == p.banner.mounted && p'.banner.timer == p.banner.timer
  {
    Page(p.banner.(visible := false), p.storage[ConsentKey := value])
  }

  function HandleAccept(p: Page): (p': Page)
    ensures ConsentKey in p'.storage && p'.storage[ConsentKey] == Accepted && !p'.banner.visible
    ensures forall k :: k != ConsentKey ==> (k in p'.storage <==> k in p.storage)
    ensures forall k :: k != ConsentKey && k in p.storage ==> p'.storage[k] == p.storage[k]
  {
    StoreDecision(p, Accepted)
  }

  function HandleDecline(p: Page): (p': Page)
    ensures ConsentKey in p'.storage && p'.storage[ConsentKey] == Declined && !p'.banner.visible
    ensures forall k :: k != ConsentKey ==> (k in p'.storage <==> k in p.storage)
    ensures forall k :: k != ConsentKey && k in p.storage ==> p'.storage[k] == p.storage[k]
  {
    StoreDecision(p, Declined)
  }

  /** A click on a button of a rendered banner: the handler runs, and the
      banner, now not visible, plays (or keeps playing) its exit animation. */
  function Click(p: Page, e: Event): Page
    requires e.ClickAccept? || e.ClickDecline?
  {
    var q := if e.ClickAccept? then HandleAccept(p) else HandleDecline(p);
    q.(banner := q.banner.(exiting := true))
  }

  /** One event.  The effect runs once per mount; unmounting clears the
      timer and discards the component; the buttons can be clicked only
      while the banner is on screen, which includes its exit animation. */
  function Step(p: Page, e: Event): (r: Page)
    ensures e.Mount? && p.banner.mounted ==> r == p
    ensures e.Mount? && !p.banner.mounted
            ==> r.banner.mounted && !Rendered(r.banner) && (r.banner.timer.Some? <==> !HasDecision(p.storage))
    ensures e.Unmount? ==> r.banner == Banner(false, false, false, None)
    ensures e.ExitFinished? ==> !r.banner.exiting && r.banner.visible == p.banner.visible
    ensures (e.ClickAccept? || e.ClickDecline?) && !Rendered(p.banner) ==> r == p
    ensures (e.ClickAccept? || e.ClickDecline?) && Rendered(p.banner)
            ==> r.storage == p.storage[ConsentKey := ClickValue(e)] && !r.banner.visible && r.banner.exiting
    ensures !(e.ClickAccept? || e.ClickDecline?) ==> r.storage == p.storage
  {
    match e
    case Mount => if p.banner.mounted then p else MountEffect(p)
    case Elapse(ms) => ElapseEffect(p, ms)
    case ExitFinished => p.(banner := p.banner.(exiting := false))
    case Unmount => Page(Banner(false, false, false, None), p.storage)
    case ClickAccept => if Rendered(p.banner) then Click(p, e) else p
    case ClickDecline(_) => if Rendered(p.banner) then Click(p, e) else p
  }

  function Run(p: Page, events: seq<Event>): Page
    decreases |events|
  {
    if |events| == 0 then p else Run(Step(p, events[0]), events[1..])
  }

  function ElapseBy(ms: nat): Event {
    Elapse(ms)
  }

  /** `ms` milliseconds pass in the steps `ds`. */
  function Waits(ds: seq<nat>): seq<Event> {
    Timers.Waits(ds, ElapseBy)
  }

  /** States the events can reach from `Initial`: an unmounted component
      shows nothing, a banner on screen has no timer left, a leaving banner
      is not visible, and a pending timer has time left to run. */
  predicate WellFormed(b: Banner) {
    && (!b.mounted ==> !Rendered(b) && b.timer.None?)
    && (Rendered(b) ==> b.timer.None?)
    && (b.exiting ==> !b.visible)
    && (b.timer.Some? ==> b.timer.value > 0)
  }

  /** A decision is stored and the banner is not visible, with no timer
      pending (it may still be playing its exit animation). */
  predicate Settled(p: Page) {
    HasDecision(p.storage) && !p.banner.visible && p.banner.timer.None?
  }

  lemma StepKeepsWellFormed(p: Page, e: Event)
    requires WellFormed(p.banner)
    ensures WellFormed(Step(p, e).banner)
  {
  }

  /** The banner is hidden initially. */
  lemma InitiallyHidden(storage: map<string, string>)
    ensures !Initial(storage).banner.visible
    ensures WellFormed(Initial(storage).banner)
  {
  }

  /** The banner only ever turns visible when time passes and its pending
      timer runs out. */
  lemma ShownOnlyByTimer(p: Page, e: Event)
    requires !p.banner.visible && Step(p, e).banner.visible
    ensures e.Elapse? && p.banner.timer.Some? && e.ms >= p.banner.timer.value
  {
  }

  /** Once a decision is stored and the banner hidden, no sequence of events
      (remounts included) shows it again. */
  lemma {:induction false} SettledStaysHidden(p: Page, events: seq<Event>)
    requires Settled(p)
    ensures Settled(Run(p, events))
    ensures !Run(p, events).banner.visible
    decreases |events|
  {
    if |events| > 0 {
      SettledStaysHidden(Step(p, events[0]), events[1..]);
    }
  }

  /** With a decision already stored at load, the banner never appears. */
  lemma StoredDecisionNeverShown(storage: map<string, string>, events: seq<Event>)
    requires HasDecision(storage)
    ensures !Run(Initial(storage), events).banner.visible
  {
    SettledStaysHidden(Initial(storage), events);
  }

  /** Accepting or declining on a banner on screen stores the decision and
      hides it for good, across unmounts and later mounts. */
  lemma DecisionHidesForGood(p: Page, e: Event, events: seq<Event>)
    requires WellFormed(p.banner) && Rendered(p.banner)
    requires e.ClickAccept? || e.ClickDecline?
    ensures Step(p, e).storage[ConsentKey] == ClickValue(e)
    ensures !Run(Step(p, e), events).banner.visible
  {
    SettledStaysHidden(Step(p, e), events);
  }

  /** While the banner plays its exit animation its buttons still work, so a
      second click overrides the first: accepting and then choosing
      "Tylko niezbędne" stores `declined`.  Once the animation has ended,
      clicks do nothing. */
  lemma LastClickDuringExitWins(p: Page, first: Event, second: Event)
    requires WellFormed(p.banner) && p.banner.visible
    requires first.ClickAccept? || first.ClickDecline?
    requires second.ClickAccept? || second.ClickDecline?
    ensures Step(Step(p, first), second).storage[ConsentKey] == ClickValue(second)
    ensures var gone := Step(Step(p, first), ExitFinished);
            Step(gone, second) == gone
  {
  }

  /** While a visible banner is left alone, it stays visible. */
  lemma {:induction false} VisibleStaysVisible(p: Page, ds: seq<nat>)
    requires WellFormed(p.banner) && p.banner.visible
    ensures Run(p, Waits(ds)).banner.visible
    decreases |ds|
  {
    if |ds| > 0 {
      assert Waits(ds)[1..] == Waits(ds[1..]);
      VisibleStaysVisible(Step(p, Elapse(ds[0])), ds[1..]);
    }
  }

  /** A mounted banner with `left` milliseconds on its timer (hence not yet
      on screen) becomes visible after the waits `ds` exactly when they add
      up to at least `left`. */
  lemma {:induction false} TimerShowsAfterDelay(p: Page, left: nat, ds: seq<nat>)
    requires WellFormed(p.banner) && p.banner.mounted && p.banner.timer == Some(left)
    ensures Run(p, Waits(ds)).banner.visible <==> Timers.Sum(ds) >= left
    decreases |ds|
  {
    if |ds| > 0 {
      assert Waits(ds)[1..] == Waits(ds[1..]);
      var q := Step(p, Elapse(ds[0]));
      if ds[0] >= left {
        VisibleStaysVisible(q, ds[1..]);
      } else {
        TimerShowsAfterDelay(q, left - ds[0], ds[1..]);
      }
    }
  }

  /** On a first visit (no decision stored) the banner appears exactly when
      2000 ms have passed since the mount. */
  lemma FirstVisitShownAfterDelay(storage: map<string, string>, ds: seq<nat>)
    requires !HasDecision(storage)
    ensures Run(Initial(storage), [Mount] + Waits(ds)).banner.visible <==> Timers.Sum(ds) >= ShowDelayMs
  {
    assert ([Mount] + Waits(ds))[1..] == Waits(ds);
    TimerShowsAfterDelay(Step(Initial(storage), Mount), ShowDelayMs, ds);
  }

  /** Unmounting cancels the timer: however much time passes afterwards, the
      banner is not shown. */
  lemma {:induction false} UnmountCancelsTimer(p: Page, ds: seq<nat>)
    ensures !Run(Step(p, Unmount), Waits(ds)).banner.visible
    decreases |ds|
  {
    if |ds| > 0 {
      assert Waits(ds)[1..] == Waits(ds[1..]);
      assert Step(Step(p, Unmount), Elapse(ds[0])) == Step(p, Unmount);
      UnmountCancelsTimer(p, ds[1..]);
    }
  }
}

=== FILE: faq.dfy ===
/** The FAQ accordion (src/components/sections/faq.tsx): a single-open
    state machine over the index of the expanded question. */
module Faq {
  import opened Wrappers
  import Content

  /** `openIndex` of the `Faq` component: the expanded item, if any. */
  datatype Accordion = Accordion(openIndex: Option<nat>)

  /** The accordion starts with the first question expanded. */
  const Initial: Accordion := Accordion(Some(0))

  /** The `isOpen` flag passed to item `j`. */
  predicate IsOpen(a: Accordion, j: nat) {
    a.openIndex == Some(j)
  }

  /** The indices, among the first `n`, of the items shown expanded. */
  function OpenItems(a: Accordion, n: nat): (open: set<nat>)
    ensures forall j: nat :: j in open <==> j < n && IsOpen(a, j)
    ensures |open| <= 1
  {
    match a.openIndex
    case Some(k) => if k < n then {k} else {}
    case None => {}
  }

  /** The `onToggle` callback of item `i`. */
  function Toggle(a: Accordion, i: nat): (a': Accordion)
    ensures forall j: nat :: IsOpen(a', j) <==> j == i && !IsOpen(a, i)
  {
    if a.openIndex == Some(i) then Accordion(None) else Accordion(Some(i))
  }

  /** The open index is absent or points into a table of `n` items. */
  predicate Valid(a: Accordion, n: nat) {
    a.openIndex.None? || a.openIndex.value < n
  }

  /** The state after the items at `clicks` are toggled in order. */
  function Run(a: Accordion, clicks: seq<nat>): Accordion
    decreases |clicks|
  {
    if |clicks| == 0 then a else Run(Toggle(a, clicks[0]), clicks[1..])
  }

  /** The initial state is valid for the site's FAQ table. */
  lemma InitialValid()
    ensures Valid(Initial, |Content.FaqItems|)
    ensures IsOpen(Initial, 0)
    ensures OpenItems(Initial, |Content.FaqItems|) == {0}
  {
  }

  /** Toggling twice restores the state exactly when the toggled item was the
      open one or nothing was open. */
  lemma ToggleTwice(a: Accordion, i: nat)
    ensures Toggle(Toggle(a, i), i) == a <==> a.openIndex.None? || a.openIndex == Some(i)
  {
  }

  /** Toggling a rendered item keeps the open index within the table. */
  lemma ToggleKeepsValid(a: Accordion, n: nat, i: nat)
    requires Valid(a, n) && i < n
    ensures Valid(Toggle(a, i), n)
  {
  }

  /** Any sequence of clicks on rendered items keeps the open index within
      the table, so the accordion always shows at most one of its items. */
  lemma {:induction false} RunKeepsValid(a: Accordion, n: nat, clicks: seq<nat>)
    requires Valid(a, n)
    requires forall k :: 0 <= k < |clicks| ==> clicks[k] < n
    ensures Valid(Run(a, clicks), n)
    ensures |OpenItems(Run(a, clicks), n)| <= 1
    decreases |clicks|
  {
    if |clicks| > 0 {
      ToggleKeepsValid(a, n, clicks[0]);
      RunKeepsValid(Toggle(a, clicks[0]), n, clicks[1..]);
    }
  }

  /** After any clicks on the site's questions, starting from the initial
      state, the open index is absent or a valid index of the FAQ table. */
  lemma {:induction false} ReachableValid(clicks: seq<nat>)
    requires forall k :: 0 <= k < |clicks| ==> clicks[k] < |Content.FaqItems|
    ensures Valid(Run(Initial, clicks), |Content.FaqItems|)
  {
    InitialValid();
    RunKeepsValid(Initial, |Content.FaqItems|, clicks);
  }
}

=== FILE: gallery.dfy ===
/** The app-screen carousel (src/components/sections/gallery.tsx): which
    scroll arrows are shown, and how far an arrow scrolls. */
module Gallery {
  import opened Wrappers

  /** One phone mock-up of the carousel. */
  datatype Screen = Screen(title: string, description: string, gradient: string, icon: string)

  const Screens: seq<Screen> := [
    Screen("Ekran główny", "4 magiczne światy do odkrycia", "from-pink-400 to-purple-500", "\U{1F3E0}"),
    Screen("Nauka liter", "Polski alfabet A-Ż z waypoints", "from-teal-400 to-teal-600", "\U{270F}\U{FE0F}"),
    Screen("Zwierzak", "Opiekuj się magicznym jajkiem", "from-purple-400 to-pink-500", "\U{1F95A}"),
    Screen("Szlaczki", "10 wzorów do śledzenia", "from-yellow-400 to-orange-500", "\U{3030}\U{FE0F}"),
    Screen("Gry", "Labirynty, puzzle i więcej", "from-green-400 to-teal-500", "\U{1F3AE}")
  ]

  /** The scroll container's geometry, in whole pixels. */
  datatype ScrollBox = ScrollBox(scrollLeft: int, scrollWidth: int, clientWidth: int)

  /** The `canScrollLeft` and `canScrollRight` flags. */
  datatype Arrows = Arrows(canScrollLeft: bool, canScrollRight: bool)

  datatype Direction = Left | Right

  /** Before the first check the right arrow is shown and the left is not. */
  const InitialArrows: Arrows := Arrows(false, true)

  /** Pixels of slack at each end before an arrow counts as useful. */
  const EdgeSlack: int := 10

  /** Pixels scrolled by one arrow click. */
  const ScrollStep: int := 300

  /** How far the container can scroll. */
  function MaxScroll(el: ScrollBox): int {
    el.scrollWidth - el.clientWidth
  }

  /** `checkScroll`: recompute both flags from the container, if it exists. */
  function CheckScroll(a: Arrows, el: Option<ScrollBox>): (a': Arrows)
    ensures el.None? ==> a' == a
    ensures el.Some? ==> (a'.canScrollLeft <==> el.value.scrollLeft > EdgeSlack)
    ensures el.Some? ==> (a'.canScrollRight <==> el.value.scrollLeft + EdgeSlack < MaxScroll(el.value))
  {
    match el
    case None => a
    case Some(b) =>
      Arrows(b.scrollLeft > EdgeSlack, b.scrollLeft < MaxScroll(b) - EdgeSlack)
  }

  /** The arrow buttons rendered, left before right. */
  function ArrowButtons(a: Arrows): (buttons: seq<Direction>)
    ensures Left in buttons <==> a.canScrollLeft
    ensures Right in buttons <==> a.canScrollRight
    ensures |buttons| == (if a.canScrollLeft then 1 else 0) + (if a.canScrollRight then 1 else 0)
    ensures |buttons| == 2 ==> buttons == [Left, Right]
  {
    (if a.canScrollLeft then [Left] else []) + (if a.canScrollRight then [Right] else [])
  }

  /** `scroll(direction)`: the `scrollBy` offset requested, or none when
      there is no container. */
  function ScrollRequest(el: Option<ScrollBox>, dir: Direction): (delta: Option<int>)
    ensures delta.Some? <==> el.Some?
    ensures delta.Some? && dir == Left ==> delta.value == -ScrollStep
    ensures delta.Some? && dir == Right ==> delta.value == ScrollStep
  {
    if el.None? then None else Some(if dir == Left then -ScrollStep else ScrollStep)
  }

  /** The two arrows are shown together exactly when the container is
      scrolled more than 10 pixels away from both ends. */
  lemma BothArrowsIffInterior(a: Arrows, el: ScrollBox)
    ensures var a' := CheckScroll(a, Some(el));
            (a'.canScrollLeft && a'.canScrollRight) <==> EdgeSlack < el.scrollLeft < MaxScroll(el) - EdgeSlack
  {
  }

  /** A container that can scroll at most 20 pixels never shows both arrows
      after a check. */
  lemma NarrowNeverBoth(a: Arrows, el: ScrollBox)
    requires MaxScroll(el) <= 2 * EdgeSlack
    ensures !(CheckScroll(a, Some(el)).canScrollLeft && CheckScroll(a, Some(el)).canScrollRight)
    ensures |ArrowButtons(CheckScroll(a, Some(el)))| <= 1
  {
  }

  /** Scrolling further right can only show the left arrow and hide the
      right one. */
  lemma ArrowsMonotone(a: Arrows, el: ScrollBox, further: int)
    requires el.scrollLeft <= further
    ensures var before := CheckScroll(a, Some(el));
            var after := CheckScroll(a, Some(el.(scrollLeft := further)));
            (before.canScrollLeft ==> after.canScrollLeft)
            && (after.canScrollRight ==> before.canScrollRight)
  {
  }

  /** At either end of a container that can scroll more than 10 pixels,
      exactly the arrow pointing away from that end is shown; at the start
      this agrees with the initial flags. */
  lemma ArrowsAtEnds(a: Arrows, el: ScrollBox)
    requires MaxScroll(el) > EdgeSlack
    ensures el.scrollLeft == 0 ==> CheckScroll(a, Some(el)) == InitialArrows
    ensures el.scrollLeft == 0 ==> ArrowButtons(CheckScroll(a, Some(el))) == [Right]
    ensures el.scrollLeft == MaxScroll(el) ==> ArrowButtons(CheckScroll(a, Some(el))) == [Left]
  {
  }

  /** An arrow is rendered only when there is more than 10 pixels of room
      on its side, and clicking it asks to scroll towards that room. */
  lemma RenderedArrowScrollsTowardRoom(a: Arrows, el: ScrollBox, dir: Direction)
    requires dir in ArrowButtons(CheckScroll(a, Some(el)))
    ensures dir == Left ==> el.scrollLeft > EdgeSlack && ScrollRequest(Some(el), dir).value < 0
    ensures dir == Right
            ==> el.scrollLeft + EdgeSlack < MaxScroll(el) && ScrollRequest(Some(el), dir).value > 0
  {
  }

  /** Screen titles key the carousel items and are pairwise distinct. */
  lemma ScreenTitlesDistinct()
    ensures forall i, j :: 0 <= i < j < |Screens| ==> Screens[i].title != Screens[j].title
  {
  }
}

=== FILE: links.dfy ===
/** Link path resolution (src/lib/utils.ts).

    The site is published under a sub-path, so every internal link is
    prefixed with a base path.  Fragment anchors, `mailto:` links and
    anything beginning with `http` are left as they are. */
module Links {
  import opened Wrappers

  /** The base path used when the environment does not provide one. */
  const DefaultBasePath: string := "/talu_kids_web"

  /** JavaScript's `String.prototype.startsWith`: a plain prefix test. */
  predicate StartsWith(s: string, prefix: string) {
    |prefix| <= |s| && s[..|prefix|] == prefix
  }

  /** `suffix` is the tail of `s`. */
  predicate EndsWith(s: string, suffix: string) {
    |suffix| <= |s| && s[|s| - |suffix|..] == suffix
  }

  /** Targets that `href` passes through unchanged. */
  predicate IsExempt(path: string) {
    StartsWith(path, "#") || StartsWith(path, "mailto:") || StartsWith(path, "http")
  }

  /** The base path: the environment value when it is set to a non-empty
      string, the default otherwise.  JavaScript's `||` treats both an unset
      variable and the empty string as missing. */
  function BasePath(env: Option<string>): (base: string)
    ensures base != ""
    ensures env.Some? && env.value != "" ==> base == env.value
    ensures env.None? || env.value == "" ==> base == DefaultBasePath
  {
    match env
    case Some(v) => if v != "" then v else DefaultBasePath
    case None => DefaultBasePath
  }

  /** `href(path)` under the deployment base path `base`. */
  function Href(base: string, path: string): (r: string)
    ensures EndsWith(r, path)
    ensures |r| == |path| || |r| == |base| + |path|
    ensures IsExempt(path) ==> r == path
    ensures !IsExempt(path) ==> StartsWith(r, base) && |r| == |base| + |path|
  {
    if IsExempt(path) then path else base + path
  }

  /** Resolution as the site performs it: the base path comes from the
      environment variable. */
  function SiteHref(env: Option<string>, path: string): (r: string)
    ensures r == path <==> IsExempt(path)
    ensures !IsExempt(path) ==> r == BasePath(env) + path
  {
    Href(BasePath(env), path)
  }

  /** A target beginning with `/` is never exempt. */
  lemma SlashNotExempt(s: string)
    requires |s| > 0 && s[0] == '/'
    ensures !IsExempt(s)
  {
    assert s[..1][0] == '/';
  }

  /** Exempt targets are fixed points: resolving twice gives the target back. */
  lemma HrefIdempotentOnExempt(base: string, path: string)
    requires IsExempt(path)
    ensures Href(base, Href(base, path)) == path
  {
  }

  /** On every other target resolution is not idempotent: with a base path
      beginning with `/`, resolving twice prefixes the base twice. */
  lemma HrefTwicePrefixesTwice(base: string, path: string)
    requires |base| > 0 && base[0] == '/'
    requires !IsExempt(path)
    ensures Href(base, Href(base, path)) == base + base + path
    ensures Href(base, Href(base, path)) != Href(base, path)
  {
    assert (base + path)[0] == '/';
    SlashNotExempt(base + path);
    assert |base + base + path| > |base + path|;
  }

  /** The worked example: with the default base, `/blog` is prefixed twice. */
  lemma DefaultBaseBlogTwice()
    ensures Href(DefaultBasePath, Href(DefaultBasePath, "/blog"))
            == "/talu_kids_web/talu_kids_web/blog"
  {
    SlashNotExempt("/blog");
    HrefTwicePrefixesTwice(DefaultBasePath, "/blog");
  }

  /** The `http` test is a bare prefix test, so a target such as `httpx` or
      `http-guide` counts as external and passes through unchanged, as do
      the sample targets of each exempt kind. */
  lemma HttpPrefixPassesThrough(base: string)
    ensures Href(base, "httpx") == "httpx"
    ensures Href(base, "http-guide") == "http-guide"
    ensures Href(base, "#faq") == "#faq"
    ensures Href(base, "mailto:x@y.pl") == "mailto:x@y.pl"
    ensures Href(base, "https://example.com") == "https://example.com"
  {
    assert "httpx"[..4] == "http";
    assert "http-guide"[..4] == "http";
    assert "#faq"[..1] == "#";
    assert "mailto:x@y.pl"[..7] == "mailto:";
    assert "https://example.com"[..4] == "http";
  }

  /** The site-relative paths the layout links to: the home page from the
      navbar and footer logos, the legal pages from the footer and the
      cookie banner, and the blog index. */
  const InternalPaths: seq<string> := ["/", "/polityka-prywatnosci", "/regulamin", "/blog"]

  /** Every site-relative link is prefixed with the base path. */
  lemma InternalLinksPrefixed(base: string)
    ensures forall i :: 0 <= i < |InternalPaths| ==> Href(base, InternalPaths[i]) == base + InternalPaths[i]
  {
    forall i | 0 <= i < |InternalPaths|
      ensures Href(base, InternalPaths[i]) == base + InternalPaths[i]
    {
      SlashNotExempt(InternalPaths[i]);
    }
  }
}

=== FILE: navbar.dfy ===
/** The navigation bar (src/components/layout/navbar.tsx): the scrolled
    style, the mobile menu and the page-scroll lock while the menu is open. */
module Navbar {
  import opened Wrappers

  /** Page offset, in pixels, past which the bar takes its scrolled style. */
  const ScrollThreshold: int := 20

  /** The component's `isScrolled` and `isMobileOpen` flags, whether it is
      mounted, and `document.body.style.overflow`. */
  datatype Bar = Bar(mounted: bool, isScrolled: bool, isMobileOpen: bool, bodyOverflow: string)

  datatype Event =
    | WindowScroll(scrollY: int)   // a window scroll event at offset `scrollY`
    | ToggleMenu                   // the menu button
    | MobileLinkClick(index: nat)  // a link of the mobile menu
    | MobileCtaClick               // the mobile "Pobierz aplikację" button
    | Unmount

  /** The body overflow the menu effect sets. */
  function OverflowFor(menuOpen: bool): (overflow: string)
    ensures overflow == "hidden" <==> menuOpen
    ensures overflow == "" <==> !menuOpen
  {
    if menuOpen then "hidden" else ""
  }

  /** The menu button's `aria-label`. */
  function MenuButtonLabel(menuOpen: bool): (ariaLabel: string)
    ensures menuOpen ==> ariaLabel == "Zamknij menu"
    ensures !menuOpen ==> ariaLabel == "Otwórz menu"
  {
    if menuOpen then "Zamknij menu" else "Otwórz menu"
  }

  /** After the first render and its effects: not scrolled, menu closed. */
  const Initial: Bar := Bar(true, false, false, OverflowFor(false))

  /** Sets the menu flag; when it changes, the previous effect's cleanup
      resets the overflow and the new effect sets it for the new value. */
  function SetMenu(b: Bar, menuOpen: bool): (b': Bar)
    ensures b'.isMobileOpen == menuOpen && b'.isScrolled == b.isScrolled && b'.mounted == b.mounted
    ensures b.isMobileOpen != menuOpen ==> b'.bodyOverflow == OverflowFor(menuOpen)
    ensures b.isMobileOpen == menuOpen ==> b' == b
  {
    if b.isMobileOpen == menuOpen then b else b.(isMobileOpen := menuOpen, bodyOverflow := OverflowFor(menuOpen))
  }

  /** One event.  Listeners and handlers exist only while the bar is
      mounted, and the mobile links and CTA only while the menu is open;
      unmounting runs the effect's cleanup. */
  function Step(b: Bar, e: Event): (r: Bar)
    ensures !b.mounted ==> r == b
    ensures b.mounted && e.WindowScroll?
            ==> r.isScrolled == (e.scrollY > ScrollThreshold) && r.isMobileOpen == b.isMobileOpen
                && r.bodyOverflow == b.bodyOverflow && r.mounted
    ensures !e.WindowScroll? ==> r.isScrolled == b.isScrolled
    ensures b.mounted && e.ToggleMenu?
            ==> r.isMobileOpen == !b.isMobileOpen && r.bodyOverflow == OverflowFor(r.isMobileOpen)
    ensures b.mounted && (e.MobileLinkClick? || e.MobileCtaClick?)
            ==> !r.isMobileOpen && (b.isMobileOpen ==> r.bodyOverflow == "")
    ensures (e.MobileLinkClick? || e.MobileCtaClick?) && !b.isMobileOpen ==> r == b
    ensures b.mounted && e.Unmount? ==> !r.mounted && r.bodyOverflow == ""
  {
    if !b.mounted then b
    else
      match e
      case WindowScroll(y) => b.(isScrolled := y > ScrollThreshold)
      case ToggleMenu => SetMenu(b, !b.isMobileOpen)
      case MobileLinkClick(_) => if b.isMobileOpen then SetMenu(b, false) else b
      case MobileCtaClick => if b.isMobileOpen then SetMenu(b, false) else b
      case Unmount => b.(mounted := false, bodyOverflow := "")
  }

  function Run(b: Bar, events: seq<Event>): Bar
    decreases |events|
  {
    if |events| == 0 then b else Run(Step(b, events[0]), events[1..])
  }

  /** The offset of the last scroll event among `events`, if there is one. */
  function LastScrollY(events: seq<Event>): (y: Option<int>)
    ensures y.None? <==> forall k :: 0 <= k < |events| ==> !events[k].WindowScroll?
    decreases |events|
  {
    if |events| == 0 then None
    else
      match LastScrollY(events[1..])
      case Some(y) => Some(y)
      case None => if events[0].WindowScroll? then Some(events[0].scrollY) else None
  }

  /** The body overflow agrees with the menu while mounted and is reset
      once unmounted. */
  predicate OverflowInSync(b: Bar) {
    b.bodyOverflow == if b.mounted then OverflowFor(b.isMobileOpen) else ""
  }

  /** The bar starts unscrolled with the menu closed and the page free to
      scroll. */
  lemma InitialState()
    ensures !Initial.isScrolled && !Initial.isMobileOpen
    ensures OverflowInSync(Initial) && Initial.bodyOverflow == ""
  {
  }

  /** A scroll event sets the scrolled style exactly past 20 pixels. */
  lemma ScrolledIffPastThreshold(b: Bar, y: int)
    requires b.mounted
    ensures Step(b, WindowScroll(y)).isScrolled <==> y > 20
  {
  }

  /** The menu button flips the menu and pressing it twice changes nothing. */
  lemma ToggleFlips(b: Bar)
    requires b.mounted && OverflowInSync(b)
    ensures Step(b, ToggleMenu).isMobileOpen == !b.isMobileOpen
    ensures Step(Step(b, ToggleMenu), ToggleMenu) == b
  {
  }

  /** A click on any mobile link or on the mobile call to action closes the
      menu and unlocks page scrolling. */
  lemma MobileClicksClose(b: Bar, e: Event)
    requires b.mounted && OverflowInSync(b)
    requires e.MobileLinkClick? || e.MobileCtaClick?
    ensures !Step(b, e).isMobileOpen && Step(b, e).bodyOverflow == ""
  {
  }

  /** Every event keeps the body overflow in step with the menu. */
  lemma StepKeepsSync(b: Bar, e: Event)
    requires OverflowInSync(b)
    ensures OverflowInSync(Step(b, e))
  {
  }

  /** After any events the body is `hidden` exactly when the mounted bar's
      menu is open, and `""` otherwise, including after unmounting. */
  lemma {:induction false} OverflowLocksOnlyWhileOpen(b: Bar, events: seq<Event>)
    requires OverflowInSync(b)
    ensures var r := Run(b, events);
            (r.bodyOverflow == "hidden" <==> r.mounted && r.isMobileOpen)
            && (r.bodyOverflow == "" <==> !(r.mounted && r.isMobileOpen))
    ensures OverflowInSync(Run(b, events))
    decreases |events|
  {
    if |events| > 0 {
      StepKeepsSync(b, events[0]);
      OverflowLocksOnlyWhileOpen(Step(b, events[0]), events[1..]);
    }
  }

  /** While mounted, the scrolled style reflects the last scroll event, and
      is left as it was when there has been none. */
  lemma {:induction false} ScrolledTracksLastScroll(b: Bar, events: seq<Event>)
    requires b.mounted
    requires forall k :: 0 <= k < |events| ==> !events[k].Unmount?
    ensures Run(b, events).isScrolled
            == match LastScrollY(events)
               case Some(y) => y > ScrollThreshold
               case None => b.isScrolled
    decreases |events|
  {
    if |events| > 0 {
      ScrolledTracksLastScroll(Step(b, events[0]), events[1..]);
    }
  }
}

=== FILE: newsletter.dfy ===
/** The newsletter sign-up section (src/components/sections/newsletter.tsx):
    an email field and a simulated submission that ignores an empty email. */
module Newsletter {
  import opened Wrappers
  import Timers
  import opened SimulatedSubmit

  /** The component's `email` state and its submission flags. */
  datatype Form = Form(email: string, submission: Submission)

  datatype Event =
    | Type(value: string)   // the input's `onChange`
    | Submit                // the form's `onSubmit`
    | Elapse(ms: nat)       // time passes

  const InitialForm: Form := Form("", SimulatedSubmit.Initial)

  /** `handleSubmit`: an empty email is ignored; any other starts the
      simulated request. */
  function HandleSubmit(f: Form): (f': Form)
    ensures f.email == "" ==> f' == f
    ensures f.email != "" ==> f'.email == f.email && f'.submission.isLoading
    ensures f.email != "" ==> f'.submission.timer == Some(SubmitDelayMs)
    ensures f'.submission.isSubmitted == f.submission.isSubmitted
  {
    if f.email == "" then f else Form(f.email, Begin(f.submission))
  }

  /** The confirmation text's address: present once submitted, and then the
      email state as it is now. */
  function Confirmation(f: Form): (shown: Option<string>)
    ensures shown.Some? <==> f.submission.isSubmitted
    ensures shown.Some? ==> shown.value == f.email
  {
    if f.submission.isSubmitted then Some(f.email) else None
  }

  /** One event.  The input and the form exist only until the submission
      completes; the submit button is disabled while loading. */
  function Step(f: Form, e: Event): (r: Form)
    ensures e.Type? && FormRendered(f.submission) ==> r.email == e.value && r.submission == f.submission
    ensures e.Type? && !FormRendered(f.submission) ==> r == f
    ensures e.Submit? && !(FormRendered(f.submission) && SubmitEnabled(f.submission)) ==> r == f
    ensures e.Submit? && f.email == "" ==> r == f
    ensures e.Submit? && FormRendered(f.submission) && SubmitEnabled(f.submission) && f.email != ""
            ==> r.email == f.email && r.submission.isLoading && !r.submission.isSubmitted
                && r.submission.timer == Some(SubmitDelayMs)
    ensures e.Elapse? ==> r.email == f.email
  {
    match e
    case Type(v) => if FormRendered(f.submission) then f.(email := v) else f
    case Submit =>
      if FormRendered(f.submission) && SubmitEnabled(f.submission) then HandleSubmit(f) else f
    case Elapse(ms) => f.(submission := SimulatedSubmit.Elapse(f.submission, ms))
  }

  function Run(f: Form, events: seq<Event>): Form
    decreases |events|
  {
    if |events| == 0 then f else Run(Step(f, events[0]), events[1..])
  }

  function ElapseBy(ms: nat): Event {
    Elapse(ms)
  }

  /** `ms` milliseconds pass in the steps `ds`. */
  function Waits(ds: seq<nat>): seq<Event> {
    Timers.Waits(ds, ElapseBy)
  }

  /** Submitting an empty email changes nothing. */
  lemma EmptyEmailIgnored(f: Form)
    requires f.email == ""
    ensures Step(f, Submit) == f
  {
  }

  /** Submitting a non-empty email from the idle form starts loading and
      does not complete the submission. */
  lemma SubmitStartsLoading(f: Form)
    requires WellFormed(f.submission) && PhaseOf(f.submission) == Idle && f.email != ""
    ensures PhaseOf(Step(f, Submit).submission) == Loading
    ensures !Step(f, Submit).submission.isSubmitted
  {
  }

  /** Every event keeps the submission well formed and moves it forward by
      at most one phase. */
  lemma StepAdvances(f: Form, e: Event)
    requires WellFormed(f.submission)
    ensures WellFormed(Step(f, e).submission)
    ensures Advances(f.submission, Step(f, e).submission)
  {
    if e.Elapse? {
      ElapseAdvances(f.submission, e.ms);
    }
  }

  /** No sequence of events moves the form back to an earlier phase; in
      particular it never returns to idle once submitted. */
  lemma {:induction false} RunNeverGoesBack(f: Form, events: seq<Event>)
    requires WellFormed(f.submission)
    ensures WellFormed(Run(f, events).submission)
    ensures Rank(PhaseOf(Run(f, events).submission)) >= Rank(PhaseOf(f.submission))
    decreases |events|
  {
    if |events| > 0 {
      StepAdvances(f, events[0]);
      RunNeverGoesBack(Step(f, events[0]), events[1..]);
    }
  }

  /** Once submitted, no event changes anything, so the confirmation keeps
      showing the same address. */
  lemma {:induction false} SubmittedIsFinal(f: Form, events: seq<Event>)
    requires WellFormed(f.submission) && f.submission.isSubmitted
    ensures Run(f, events) == f
    ensures Confirmation(Run(f, events)) == Some(f.email)
    decreases |events|
  {
    if |events| > 0 {
      assert Step(f, events[0]) == f;
      SubmittedIsFinal(f, events[1..]);
    }
  }

  /** Letting time pass only advances the submission's timer. */
  lemma {:induction false} WaitsOnlyAdvanceTimer(f: Form, ds: seq<nat>)
    ensures Run(f, Waits(ds)) == Form(f.email, Wait(f.submission, ds))
    decreases |ds|
  {
    if |ds| > 0 {
      assert Waits(ds)[1..] == Waits(ds[1..]);
      WaitsOnlyAdvanceTimer(Step(f, Elapse(ds[0])), ds[1..]);
    }
  }

  /** From the idle form with a non-empty email, a submit followed by waits
      `ds` shows the confirmation exactly when 1000 ms have passed. */
  lemma SubmittedAfterDelay(f: Form, ds: seq<nat>)
    requires WellFormed(f.submission) && PhaseOf(f.submission) == Idle && f.email != ""
    ensures Run(f, [Submit] + Waits(ds)).submission.isSubmitted <==> Timers.Sum(ds) >= SubmitDelayMs
    ensures Confirmation(Run(f, [Submit] + Waits(ds))).Some?
            ==> Confirmation(Run(f, [Submit] + Waits(ds))).value == f.email
  {
    assert ([Submit] + Waits(ds))[1..] == Waits(ds);
    var g := Step(f, Submit);
    BeginFromIdle(f.submission);
    WaitsOnlyAdvanceTimer(g, ds);
    CompletesAfterDelay(g.submission, ds);
  }

  /** The field stays editable while loading, and the confirmation shows the
      address in the field when the timer fires, not the one submitted. */
  lemma EditWhileLoadingShown(f: Form, v: string, ms: nat)
    requires WellFormed(f.submission) && PhaseOf(f.submission) == Loading
    requires ms >= f.submission.timer.value
    ensures Confirmation(Step(Step(f, Type(v)), Elapse(ms))) == Some(v)
  {
  }
}

=== FILE: simulated_submit.dfy ===
/** The simulated submission shared by the newsletter form and the contact
    page: a submit sets `isLoading` and schedules a 1000 ms timer whose
    callback sets `isSubmitted` and clears `isLoading`.  Nothing is sent. */
module SimulatedSubmit {
  import opened Wrappers
  import Timers

  /** Delay, in milliseconds, of the simulated request. */
  const SubmitDelayMs: nat := 1000

  /** The `isLoading` and `isSubmitted` flags and the pending timer. */
  datatype Submission = Submission(isLoading: bool, isSubmitted: bool, timer: Option<nat>)

  /** What the user sees: the form, the form with a spinner in its disabled
      button, or the confirmation. */
  datatype Phase = Idle | Loading | Submitted

  const Initial: Submission := Submission(false, false, None)

  function PhaseOf(s: Submission): (ph: Phase)
    ensures ph == Submitted <==> s.isSubmitted
    ensures ph == Loading <==> s.isLoading && !s.isSubmitted
  {
    if s.isSubmitted then Submitted else if s.isLoading then Loading else Idle
  }

  /** Position of a phase in the sequence idle, loading, submitted. */
  function Rank(ph: Phase): nat {
    match ph
    case Idle => 0
    case Loading => 1
    case Submitted => 2
  }

  /** The form is rendered until the submission completes; afterwards the
      confirmation replaces it. */
  predicate FormRendered(s: Submission) {
    !s.isSubmitted
  }

  /** The submit button is `disabled={isLoading}`. */
  predicate SubmitEnabled(s: Submission) {
    !s.isLoading
  }

  /** The part of a submit handler after its guard: set loading and schedule
      the completion. */
  function Begin(s: Submission): (s': Submission)
    ensures s'.isLoading && s'.isSubmitted == s.isSubmitted
    ensures s'.timer == Some(SubmitDelayMs)
  {
    Submission(true, s.isSubmitted, Some(SubmitDelayMs))
  }

  /** `ms` milliseconds pass; when the timer fires the submission completes. */
  function Elapse(s: Submission, ms: nat): (s': Submission)
    ensures s.timer.Some? && ms >= s.timer.value ==> s'.isSubmitted && !s'.isLoading && s'.timer.None?
    ensures s.timer.None? || ms < s.timer.value
            ==> s'.isSubmitted == s.isSubmitted && s'.isLoading == s.isLoading
    ensures s.timer.Some? && ms < s.timer.value ==> s'.timer == Some(s.timer.value - ms)
  {
    var tick := Timers.Advance(s.timer, ms);
    if tick.fired then Submission(false, true, None)
    else Submission(s.isLoading, s.isSubmitted, tick.rest)
  }

  /** The states a submission can be in: loading exactly while the timer
      runs, never loading once submitted, and a pending timer has time left. */
  predicate WellFormed(s: Submission) {
    && (s.isLoading <==> s.timer.Some?)
    && (s.isSubmitted ==> !s.isLoading)
    && (s.timer.Some? ==> s.timer.value > 0)
  }

  /** `s'` is `s` or the next phase after it: the only moves are idle to
      loading and loading to submitted. */
  predicate Advances(s: Submission, s': Submission) {
    Rank(PhaseOf(s')) == Rank(PhaseOf(s)) || Rank(PhaseOf(s')) == Rank(PhaseOf(s)) + 1
  }

  lemma InitialWellFormed()
    ensures WellFormed(Initial) && PhaseOf(Initial) == Idle
  {
  }

  /** A submit from a rendered, enabled form moves from idle to loading
      without completing. */
  lemma BeginFromIdle(s: Submission)
    requires WellFormed(s) && FormRendered(s) && SubmitEnabled(s)
    ensures WellFormed(Begin(s))
    ensures PhaseOf(s) == Idle && PhaseOf(Begin(s)) == Loading
    ensures !Begin(s).isSubmitted
  {
  }

  /** Letting time pass keeps a submission well formed and never moves it
      back: a loading one stays loading or completes. */
  lemma ElapseAdvances(s: Submission, ms: nat)
    requires WellFormed(s)
    ensures WellFormed(Elapse(s, ms))
    ensures Advances(s, Elapse(s, ms))
    ensures PhaseOf(s) != Loading ==> PhaseOf(Elapse(s, ms)) == PhaseOf(s)
  {
  }

  /** `ms` milliseconds pass in the steps `ds`, one after another. */
  function Wait(s: Submission, ds: seq<nat>): Submission
    decreases |ds|
  {
    if |ds| == 0 then s else Wait(Elapse(s, ds[0]), ds[1..])
  }

  /** A completed submission stays completed however much time passes. */
  lemma {:induction false} SubmittedStays(s: Submission, ds: seq<nat>)
    requires WellFormed(s) && s.isSubmitted
    ensures Wait(s, ds) == s
    decreases |ds|
  {
    if |ds| > 0 {
      SubmittedStays(Elapse(s, ds[0]), ds[1..]);
    }
  }

  /** A loading submission with `left` milliseconds to go completes after
      the waits `ds` exactly when they add up to at least `left`, and is
      still loading otherwise. */
  lemma {:induction false} CompletesAfterDelay(s: Submission, ds: seq<nat>)
    requires WellFormed(s) && s.isLoading
    ensures Wait(s, ds).isSubmitted <==> Timers.Sum(ds) >= s.timer.value
    ensures !Wait(s, ds).isSubmitted ==> Wait(s, ds).isLoading
    decreases |ds|
  {
    if |ds| > 0 {
      var t := Elapse(s, ds[0]);
      if ds[0] >= s.timer.value {
        SubmittedStays(t, ds[1..]);
      } else {
        CompletesAfterDelay(t, ds[1..]);
      }
    }
  }
}

=== FILE: timers.dfy ===
/** A `setTimeout` as the site uses it: a one-shot callback that fires once
    at least its delay has passed.  Time passes in explicit steps. */
module Timers {
  import opened Wrappers

  /** The outcome of letting time pass on a timer: whether its callback
      fires now, and the milliseconds left if it is still pending. */
  datatype Tick = Tick(fired: bool, rest: Option<nat>)

  /** `ms` milliseconds pass on the timer `t` (`None` when nothing is
      scheduled or it was cleared). */
  function Advance(t: Option<nat>, ms: nat): (r: Tick)
    ensures r.fired <==> t.Some? && ms >= t.value
    ensures r.fired ==> r.rest.None?
    ensures t.None? ==> r.rest.None?
    ensures t.Some? && ms < t.value ==> r.rest == Some(t.value - ms)
  {
    match t
    case None => Tick(false, None)
    case Some(left) => if ms >= left then Tick(true, None) else Tick(false, Some(left - ms))
  }

  /** Total time of a sequence of steps. */
  function Sum(ds: seq<nat>): nat
    decreases |ds|
  {
    if |ds| == 0 then 0 else ds[0] + Sum(ds[1..])
  }

  /** The events of letting the times `ds` pass one after another, where
      `elapse(ms)` is a component's "time passes" event. */
  function Waits<E>(ds: seq<nat>, elapse: nat -> E): (events: seq<E>)
    ensures |events| == |ds|
    ensures forall k :: 0 <= k < |ds| ==> events[k] == elapse(ds[k])
  {
    seq(|ds|, k requires 0 <= k < |ds| => elapse(ds[k]))
  }
}

=== FILE: wrappers.dfy ===
/** The Some/None datatype used wherever the site's code works with a value
    that may be absent (`null`, `undefined`, an unset environment variable). */
module Wrappers {

  datatype Option<+T> = None | Some(value: T)
}
